=== FILE: README.md ===
# Urban mobility dataset builder: decision logic in Dafny

The repository assembles a multi-layer mobility dataset for a city. It has a
street network, a region layer, a parking layer and a demand layer. Most of
it drives map, transit and census libraries. This project models the few
pieces that decide values:

- **Speed and travel time** (`RegionInfoLayer`). An edge's speed in m/s comes
  from an explicit `maxspeed` when one is given. Otherwise it comes from the
  road-type table `v_dict`. A road type the table does not know gets 20 km/h.
  A list-valued `maxspeed` is replaced by 20 km/h. The edge walk builds one
  speed and one travel time per edge, in edge order.
- **Node-to-region assignment** (`RegionInfoLayer.GetGeoNode`). A
  zero-initialised label array gets one entry per point. Every polygon that
  contains the point overwrites that entry, so the last containing polygon
  in table order wins. A point in no polygon keeps 0, which is also a
  possible region label.
- **Parking accumulation** (`Parking`). The parking column starts at zero,
  one counter per edge. Every open lot adds 1 to its nearest edge. Every
  parking house then adds its capacity to its nearest edge. "Nearest" means
  the first edge at minimum distance, as `idxmin` picks it.
- **Demand trips to nodes** (`DemandLayer`). Every trip row gets the osmid
  of the node nearest to its dropoff point and of the node nearest to its
  pickup point. Points are built as (longitude, latitude). A lookup that
  raises yields NaN in both lists. A query with a NaN coordinate does not
  raise. The model assumes that every distance to such a point is NaN, so
  the lookup returns NaN for that one list only. If the pickup lookup raises after the
  dropoff id was appended, the dropoff list gets two entries for that row.
  The lists then have different lengths, and assigning them as columns
  raises. The model returns that case as `Err(LengthMismatch(..))`.
- **Input validators** (`Utils`): exact membership tests on prompt answers.

Geometry is not interpreted. Point-in-polygon containment is a parameter
`contains: (G, P) -> bool`, and shapely distance is a parameter
`distance: (E, F) -> real`. In `DemandLayer`, whatever makes a node lookup
raise is a parameter `fails: Point -> bool`. An empty node table also
makes the lookup raise. NaN is `Option.None`, so a demand coordinate is an
`Option<real>`. Speeds and lengths are `real`.

Three consequences of the code are stated and proved:

- The dictionary literal lists the key `'[residential, unclassified]'`
  twice. The later value, 30 km/h, is the one kept.
- `str()` of a list of tags prints the tags quoted, as in
  `"['residential', 'tertiary']"`. The compound keys of the table are
  unquoted, so no list-valued road class ever matches one of them. Such an
  edge without `maxspeed` gets the 20 km/h fallback
  (`CompoundKeysUnmatched`).
- The lengths in `length` are numpy floats. Dividing by a zero speed
  therefore gives a non-finite value instead of raising. `TravelTime` is
  `None` both for a NaN speed and for a zero speed.

The model keeps three behaviours of the code that a cleaner design would
change:

- Overlapping polygons: the last containing polygon gives the label, not the
  first one.
- The label 0 means both "no region" and "region 0". No distinct sentinel is
  used.
- The travel time divides by the speed without checking that it is
  positive.

## Model

| member | source | states |
|---|---|---|
| `RegionInfoLayer.Kph2Ms` | proj_sp_conradi/region_info_layer.py:24-28 | the m/s value times 3.6 is the km/h value |
| `RegionInfoLayer.VelocityFromType` | proj_sp_conradi/region_info_layer.py:9-21 | an explicit maxspeed gives maxspeed/3.6 whatever the key; with no maxspeed, a key in the table gives its entry/3.6, or NaN for a NaN entry; an unknown key gives 20/3.6 |
| `RegionInfoLayer.EdgeSpeed` | proj_sp_conradi/region_info_layer.py:73-79 | per edge: a numeric maxspeed gives maxspeed/3.6; a list-valued maxspeed gives 20/3.6 for any road class; a missing maxspeed follows the table entry for `str(highway)`, or 20/3.6 when there is none |
| `RegionInfoLayer.TravelTime` | proj_sp_conradi/region_info_layer.py:80 | a time exists exactly when the speed is neither NaN nor 0, and then time × speed = length |
| `RegionInfoLayer.EdgeStep` | proj_sp_conradi/region_info_layer.py:74-80 | one pass of the loop: the speed is the edge's speed, the time is its travel time, and time × speed = length wherever a time exists |
| `RegionInfoLayer.GetSpeedTime` | proj_sp_conradi/region_info_layer.py:67-84 | exactly one speed and one time per edge, in edge order; speed[i] is the edge's speed and time[i] × speed[i] = length[i] wherever a time exists |
| `RegionInfoLayer.ResidentialDefault` | proj_sp_conradi/region_info_layer.py:44 | a residential edge without maxspeed runs at 30/3.6 m/s |
| `RegionInfoLayer.ExplicitMaxspeedWins` | proj_sp_conradi/region_info_layer.py:20-21 | a maxspeed of 50 km/h gives 50/3.6 m/s for every road class |
| `RegionInfoLayer.DuplicateKeyKeepsLater` | proj_sp_conradi/region_info_layer.py:52-63 | the key listed twice keeps its later value, 30 km/h |
| `RegionInfoLayer.SpeedTableShape` | proj_sp_conradi/region_info_layer.py:35-65 | 'service' and 'invalid' are keys of the table and are exactly its NaN entries; every other speed is between 15 and 80 km/h |
| `RegionInfoLayer.Key` | proj_sp_conradi/region_info_layer.py:79 | `str(e)`: a single road class is its own key; a list's key is `[]` or starts with `['`, and for a non-empty list `[` is followed by its first tag in quotes |
| `RegionInfoLayer.MaxsOf` | proj_sp_conradi/region_info_layer.py:75-79 | `float(maxs)`: NaN exactly when maxspeed is missing, the given number when there is one, and 20 for a list-valued maxspeed |
| `RegionInfoLayer.NaNEntriesGiveNoTime` | proj_sp_conradi/region_info_layer.py:46-65 | the 'service' and 'invalid' entries give a NaN speed and a NaN time |
| `RegionInfoLayer.CompoundKeysUnmatched` | proj_sp_conradi/region_info_layer.py:74-79 | the printed form of a list of road classes is never a table key, so such an edge without maxspeed runs at 20/3.6 m/s |
| `RegionInfoLayer.LastContaining` | proj_sp_conradi/region_info_layer.py:164-167 | no label exactly when no polygon contains the point; otherwise the label of a containing polygon with no containing polygon after it |
| `RegionInfoLayer.Label` | proj_sp_conradi/region_info_layer.py:162-167 | a non-zero stored label is the label of some polygon that contains the point |
| `RegionInfoLayer.GetGeoNode` | proj_sp_conradi/region_info_layer.py:156-167 | a new array with one entry per point, holding the label of the last containing polygon, or 0 |
| `RegionInfoLayer.UncontainedPointKeepsZero` | proj_sp_conradi/region_info_layer.py:162-167 | a point contained in no polygon keeps the initial 0 |
| `RegionInfoLayer.LastContainerWins` | proj_sp_conradi/region_info_layer.py:164-167 | of several containing polygons, the last one in table order gives the label |
| `RegionInfoLayer.OnlyContainerGivesLabel` | proj_sp_conradi/region_info_layer.py:164-167 | a point contained in exactly one polygon gets that polygon's label |
| `RegionInfoLayer.ZeroLabelIsAmbiguous` | proj_sp_conradi/region_info_layer.py:162-167 | a point inside a region labelled 0 and a point inside no region both get 0 |
| `Common.FirstArgMin` | proj_sp_conradi/get_parking.py:38 | `idxmin`: an index of a smallest distance, with every earlier distance strictly larger |
| `Common.Nearest` | proj_sp_conradi/get_parking.py:37-38 | the first geometry at minimum distance from the query |
| `Parking.ParkingTable` | proj_sp_conradi/get_parking.py:33 | the parking column has one entry per edge |
| `Parking.Accumulate` | proj_sp_conradi/get_parking.py:36-42 | the column after the features in order has one entry per edge, and an edge that is the nearest edge of no feature keeps its value |
| `Parking.AfterFeature` | proj_sp_conradi/get_parking.py:36-42 | one feature adds its spots to its nearest edge, and every other entry is unchanged |
| `Parking.AddAtNearest` | proj_sp_conradi/get_parking.py:37-38 | the in-place `+=` at the `idxmin` edge turns the column into the one after that feature |
| `Parking.GetParking` | proj_sp_conradi/get_parking.py:19-43 | a new array, zero at first, holding the column after all lots (1 each) and then all parking houses (their capacity), each at its nearest edge |
| `Parking.AccumulateSum` | proj_sp_conradi/get_parking.py:36-42 | processing features raises the column's sum by exactly their total spots |
| `Parking.ParkingTotal` | proj_sp_conradi/get_parking.py:36-42 | the parking column sums to the number of open lots plus the total house capacity |
| `Parking.AccumulateMonotone` | proj_sp_conradi/get_parking.py:36-42 | with non-negative contributions, no entry decreases |
| `Parking.ParkingNonNegative` | proj_sp_conradi/get_parking.py:33-42 | with non-negative capacities, every entry is at least 0 after the lots, and the houses do not lower it |
| `Parking.TwoLotsOnOneEdge` | proj_sp_conradi/get_parking.py:36-38 | two lots with the same nearest edge give it 2 and every other edge 0 |
| `DemandLayer.DropoffQuery` | proj_sp_conradi/demand_layer.py:13-14 | the dropoff query point is (longitude, latitude) |
| `DemandLayer.PickupQuery` | proj_sp_conradi/demand_layer.py:15-16 | the pickup query point is (longitude, latitude) |
| `DemandLayer.Lookup` | proj_sp_conradi/demand_layer.py:12-16 | the lookup raises exactly when there are no nodes or `fails` holds; when it returns, its value is NaN exactly when a query coordinate is NaN, under the assumption that every distance to such a point is NaN |
| `DemandLayer.LookupFindsNearest` | proj_sp_conradi/demand_layer.py:13-16 | a lookup that does not raise, on a query without NaN, returns the osmid of the first node at minimum distance |
| `DemandLayer.IdOf` | proj_sp_conradi/demand_layer.py:13-19 | the list entry of a lookup is the handler's NaN when it raised and its returned value otherwise |
| `DemandLayer.RowAppends` | proj_sp_conradi/demand_layer.py:12-19 | a row adds one pickup entry, and one dropoff entry or two when only the pickup lookup raises; the first entries are the row's dropoff and pickup ids |
| `DemandLayer.DriftCount` | proj_sp_conradi/demand_layer.py:13-19 | the number of drifting rows is at most the row count, and is zero exactly when no row drifts |
| `DemandLayer.Columns` | proj_sp_conradi/demand_layer.py:9-19 | the pickup list has one entry per row; the dropoff list has one more entry for every drifting row |
| `DemandLayer.MapTripsToNodes` | proj_sp_conradi/demand_layer.py:9-19 | the row loop builds exactly those two lists |
| `DemandLayer.AssignColumns` | proj_sp_conradi/demand_layer.py:21-22 | assigning succeeds exactly when both lists have one entry per row, and then row i carries dropoff[i] and pickup[i] |
| `DemandLayer.GetDemand` | proj_sp_conradi/demand_layer.py:6-24 | the result is the rows plus the two id columns exactly when no row drifts, with each row's own ids in row order; otherwise it is the length-mismatch error |
| `DemandLayer.NoDriftAligned` | proj_sp_conradi/demand_layer.py:9-22 | without drifting rows, entry i of both lists belongs to row i |
| `DemandLayer.DriftDiverges` | proj_sp_conradi/demand_layer.py:13-19 | one drifting row makes the dropoff list longer than the pickup list |
| `DemandLayer.FailedDropoffGivesNaN` | proj_sp_conradi/demand_layer.py:12-19 | a row whose dropoff lookup raises contributes NaN to both lists |
| `DemandLayer.NaNDropoffKeepsPickup` | proj_sp_conradi/demand_layer.py:13-16 | a NaN dropoff coordinate does not raise, so the pickup is still looked up and the row does not drift; the dropoff id is NaN under the NaN-distance assumption |
| `DemandLayer.NaNPickupDoesNotDrift` | proj_sp_conradi/demand_layer.py:15-16 | a NaN pickup coordinate does not raise, so the row does not drift; its pickup id is NaN under the NaN-distance assumption |
| `Utils.ValidYnInput` | proj_sp_conradi/utils.py:2-7 | true exactly for "y" and "n" |
| `Utils.YnRejectsOtherSpellings` | proj_sp_conradi/utils.py:4-7 | "Y", "N", "yes", "no", "" and " y" are rejected |
| `Utils.ValidCityInput` | proj_sp_conradi/utils.py:10-15 | true exactly when the city occurs in the list; never for an empty list |
| `Utils.AppendedCityIsValid` | proj_sp_conradi/utils.py:10-15 | after a city is appended it is valid, and cities valid before stay valid |
| `Utils.ValidUrlInput` | proj_sp_conradi/utils.py:18-23 | true exactly when the URL occurs in the list |

## Left out

- The interactive application, its prompts, JSON writes, census lookups and output paths (`app.py`): user interface and file I/O.
- Transit feeds, street-network download and storage (`gtfs_layer.py`, `get_store_gtfs.py`, `osm_layer.py`, `get_store_osm.py`): network I/O and foreign library calls.
- `simplify_graph` (in `osm_layer.py` and `get_parking.py`): graph contraction, projection and UTM conversion are done by unseen libraries.
- `get_geom` and the CSV-reading `get_parking` of `region_info_layer.py`: file reads from fixed paths plus pandas merges and joins.
- Reading the parking, demand and region files: the model takes their rows as parameters.
- Shapely geometry: containment and distance are parameters, not geometry.
- Floating point: `/3.6` is exact real division. IEEE rounding, infinities and pandas `idxmin` skipping NaN distances are not modelled. Zero-speed quotients are folded into `None`.
- Column types: the label array and the parking column are numpy float arrays in the source and integer arrays here.
- `RegionInfoLayer.EdgeSpeed`: a `maxspeed` cell holding a string is taken as already converted by `float()`. A string that `float()` cannot parse raises in the source and is not modelled.
- `RegionInfoLayer.CompoundKeysUnmatched`: Python's escaping of quote characters inside a printed tag is not modelled.
- `Parking.GetParking`: edges are addressed by position. This assumes the edge table has a range index, so that the `idxmin` label is the position.
- `Parking.GetParking`: `idxmin` on an empty edge table raises. The model therefore requires at least one edge whenever there is a feature to place.
- `DemandLayer.Lookup`: the model assumes that shapely's distance to a point with a NaN coordinate is NaN. A library version that returns a finite distance instead makes `idxmin` return the first node's osmid, which is not modelled.
- `DemandLayer.Lookup`: under that assumption every distance is NaN. `idxmin` of an all-NaN series returns NaN before pandas 3.0 and raises from 3.0 on; the model follows the earlier versions.
- `DemandLayer.Lookup`: other causes of raising, such as a failing distance computation, are the abstract `fails`; only the empty node table is modelled directly.
- `DemandLayer.Lookup`: node geometries are taken as valid, so a mix of NaN and numeric distances, where `idxmin` skips the NaNs, is not modelled.
- `RegionInfoLayer.VelocityFromType`: the message printed for a road type missing from the table is console output and is not modelled.
- `RegionInfoLayer.GetSpeedTime`: `types[i]`, `length[i]` and `maxspeed[i]` are label lookups. The model reads them by position, which assumes the edge table has a range index.
- `Parking.GetParking`: `anzahl_oeffentliche_pp` is a float column that may hold NaN. The model takes an integer capacity, so a NaN capacity turning an entry NaN is not modelled.
- Argument mismatches at the call sites of `get_geo_node` and `get_parking` in `app.py`: call-site errors outside the modelled functions.

=== FILE: common.dfy ===
/**
 * Pieces shared by the layers: an Option type standing for values that may
 * be NaN, and the "first index at minimum distance" rule that pandas'
 * `Series.idxmin` applies to a column of shapely distances.
 *
 * Geometry is not interpreted: a distance is whatever function of type
 * `(G, Q) -> real` the caller supplies.
 */
module Common {

  /** `None` stands for a NaN cell (a missing value in a pandas column). */
  datatype Option<+T> = None | Some(value: T) {
    function GetOr(default: T): T {
      match this
      case Some(v) => v
      case None => default
    }
  }

  /**
   * Position of the first minimum of a non-empty sequence of distances:
   * no element is smaller, and every element before it is strictly larger.
   */
  function FirstArgMin(ds: seq<real>): (k: nat)
    requires |ds| > 0
    ensures k < |ds|
    ensures forall j :: 0 <= j < |ds| ==> ds[k] <= ds[j]
    ensures forall j :: 0 <= j < k ==> ds[k] < ds[j]
  {
    if |ds| == 1 then 0
    else
      var k' := FirstArgMin(ds[..|ds| - 1]);
      if ds[|ds| - 1] < ds[k'] then |ds| - 1 else k'
  }

  /** The two properties of FirstArgMin pin it down: no other index has both. */
  lemma FirstArgMinUnique(ds: seq<real>, k: nat)
    requires k < |ds|
    requires forall j :: 0 <= j < |ds| ==> ds[k] <= ds[j]
    requires forall j :: 0 <= j < k ==> ds[k] < ds[j]
    ensures FirstArgMin(ds) == k
  {
  }

  /** The distance column `geoms.distance(q)`: one entry per geometry, in order. */
  function Distances<G, Q>(geoms: seq<G>, q: Q, distance: (G, Q) -> real): (ds: seq<real>)
    ensures |ds| == |geoms|
    ensures forall i :: 0 <= i < |geoms| ==> ds[i] == distance(geoms[i], q)
  {
    seq(|geoms|, i requires 0 <= i < |geoms| => distance(geoms[i], q))
  }

  /**
   * `geoms.distance(q).idxmin()` over a positional index: the first geometry
   * whose distance to `q` is the smallest.
   */
  function Nearest<G, Q>(geoms: seq<G>, q: Q, distance: (G, Q) -> real): (k: nat)
    requires |geoms| > 0
    ensures k < |geoms|
    ensures forall j :: 0 <= j < |geoms| ==> distance(geoms[k], q) <= distance(geoms[j], q)
    ensures forall j :: 0 <= j < k ==> distance(geoms[k], q) < distance(geoms[j], q)
  {
    FirstArgMin(Distances(geoms, q, distance))
  }
}

=== FILE: demand_layer.dfy ===
/**
 * The demand layer: every trip row gets the id of the street node nearest
 * to its dropoff centroid and of the node nearest to its pickup centroid.
 *
 * A node lookup computes the distance from every node geometry to the query
 * point and takes the first node at minimum distance. A lookup has three
 * outcomes. It raises on an empty node table, and for whatever else the
 * caller-supplied predicate `fails` says of the query point (a failing
 * distance computation); the handler then appends NaN (`None`). A query
 * with a NaN coordinate returns NaN without raising: the model assumes the
 * geometry library's distance to such a point is NaN for every node, so
 * that the minimum over them is NaN. Otherwise the lookup returns the id of
 * the nearest node.
 */
module DemandLayer {
  import opened Common

  /** A shapely point: `x` is the longitude, `y` the latitude; `None` is a NaN coordinate. */
  datatype Point = Point(x: Option<real>, y: Option<real>)
  {
    /** Both coordinates are numbers. */
    predicate Complete() {
      x.Some? && y.Some?
    }
  }

  /** A lookup either raises or returns an id, which is NaN for an incomplete query. */
  datatype Outcome = Raised | Returned(id: Option<int>)

  /** A street node: its `osmid` label and its geometry. */
  datatype Node<G> = Node(osmid: int, geometry: G)

  /** A row of the demand table; `others` stands for its remaining columns. */
  datatype Trip<R> = Trip(
    pickupLatitude: Option<real>, pickupLongitude: Option<real>,
    dropoffLatitude: Option<real>, dropoffLongitude: Option<real>,
    others: R)

  /** A row of the result: the input row and the two new columns. */
  datatype MappedTrip<R> = MappedTrip(trip: Trip<R>, dropoffOsmid: Option<int>, pickupOsmid: Option<int>)

  /** The two id lists built by the row loop. */
  datatype IdLists = IdLists(dropoff: seq<Option<int>>, pickup: seq<Option<int>>)

  /** Raised by the column assignment when a list and the table differ in length. */
  datatype DemandError = LengthMismatch(rows: nat, dropoffs: nat, pickups: nat)

  datatype Result<T> = Ok(value: T) | Err(error: DemandError)

  /** The query point of a dropoff: longitude first, then latitude. */
  function DropoffQuery<R>(t: Trip<R>): (q: Point)
    ensures q.x == t.dropoffLongitude && q.y == t.dropoffLatitude
  {
    Point(t.dropoffLongitude, t.dropoffLatitude)
  }

  /** The query point of a pickup: longitude first, then latitude. */
  function PickupQuery<R>(t: Trip<R>): (q: Point)
    ensures q.x == t.pickupLongitude && q.y == t.pickupLatitude
  {
    Point(t.pickupLongitude, t.pickupLatitude)
  }

  function Geometries<G>(nodes: seq<Node<G>>): (gs: seq<G>)
    ensures |gs| == |nodes| && forall i :: 0 <= i < |nodes| ==> gs[i] == nodes[i].geometry
  {
    seq(|nodes|, i requires 0 <= i < |nodes| => nodes[i].geometry)
  }

  /**
   * Node `k` is at minimum distance from `q`, and every node before it is
   * strictly farther.
   */
  ghost predicate IsFirstNearest<G>(nodes: seq<Node<G>>, q: Point, distance: (G, Point) -> real, k: nat) {
    && k < |nodes|
    && (forall j :: 0 <= j < |nodes| ==> distance(nodes[k].geometry, q) <= distance(nodes[j].geometry, q))
    && (forall j :: 0 <= j < k ==> distance(nodes[k].geometry, q) < distance(nodes[j].geometry, q))
  }

  /**
   * `points['geometry'].distance(q).idxmin()` inside the try block: it
   * raises on an empty node table or when `fails(q)`, returns NaN when a
   * coordinate of `q` is NaN (assuming every distance to `q` is then NaN),
   * and otherwise returns the osmid of the first
   * node at minimum distance from `q`.
   */
  function Lookup<G>(nodes: seq<Node<G>>, q: Point, distance: (G, Point) -> real, fails: Point -> bool): (r: Outcome)
    ensures r.Raised? <==> |nodes| == 0 || fails(q)
    ensures r.Returned? ==> (r.id.None? <==> !q.Complete())
  {
    if |nodes| == 0 || fails(q) then Raised
    else if !q.Complete() then Returned(None)
    else
      var k := Nearest(Geometries(nodes), q, distance);
      Returned(Some(nodes[k].osmid))
  }

  /**
   * A lookup that neither raises nor meets a NaN coordinate returns the
   * osmid of the first node at minimum distance from the query point.
   */
  lemma LookupFindsNearest<G>(nodes: seq<Node<G>>, q: Point, distance: (G, Point) -> real, fails: Point -> bool)
    requires |nodes| > 0 && !fails(q) && q.Complete()
    ensures var r := Lookup(nodes, q, distance, fails);
            r.Returned? && r.id.Some? &&
            exists k :: 0 <= k < |nodes| && nodes[k].osmid == r.id.value && IsFirstNearest(nodes, q, distance, k)
  {
  }

  /** The value a lookup puts in a list: the NaN of the handler when it raised. */
  function IdOf(o: Outcome): (id: Option<int>)
    ensures o.Raised? ==> id.None?
    ensures o.Returned? ==> id == o.id
  {
    if o.Raised? then None else o.id
  }

  /** The id the row contributes to the dropoff column. */
  function DropoffId<G, R>(t: Trip<R>, nodes: seq<Node<G>>, distance: (G, Point) -> real, fails: Point -> bool): Option<int> {
    IdOf(Lookup(nodes, DropoffQuery(t), distance, fails))
  }

  /** The id the row contributes to the pickup column: NaN whenever its dropoff lookup raised. */
  function PickupId<G, R>(t: Trip<R>, nodes: seq<Node<G>>, distance: (G, Point) -> real, fails: Point -> bool): Option<int> {
    if Lookup(nodes, DropoffQuery(t), distance, fails).Raised? then None
    else IdOf(Lookup(nodes, PickupQuery(t), distance, fails))
  }

  /** The row's dropoff lookup returns (an id or NaN) but its pickup lookup raises. */
  predicate Drifts<G, R>(t: Trip<R>, nodes: seq<Node<G>>, distance: (G, Point) -> real, fails: Point -> bool) {
    Lookup(nodes, DropoffQuery(t), distance, fails).Returned? && Lookup(nodes, PickupQuery(t), distance, fails).Raised?
  }

  /**
   * What one row appends. The dropoff id is appended before the pickup
   * lookup runs, so when only the pickup lookup raises the handler's NaN
   * lands after it: the dropoff list gains two entries, the pickup list one.
   */
  function RowAppends<G, R>(t: Trip<R>, nodes: seq<Node<G>>, distance: (G, Point) -> real, fails: Point -> bool): (r: IdLists)
    ensures |r.pickup| == 1
    ensures |r.dropoff| == (if Drifts(t, nodes, distance, fails) then 2 else 1)
    ensures r.dropoff[0] == DropoffId(t, nodes, distance, fails)
    ensures r.pickup[0] == PickupId(t, nodes, distance, fails)
    ensures Drifts(t, nodes, distance, fails) ==> r.dropoff[1] == None
  {
    match Lookup(nodes, DropoffQuery(t), distance, fails)
    case Raised => IdLists([None], [None])
    case Returned(d) =>
      match Lookup(nodes, PickupQuery(t), distance, fails)
      case Raised => IdLists([d, None], [None])
      case Returned(p) => IdLists([d], [p])
  }

  /** No row of `rows` drifts. */
  predicate NoRowDrifts<G, R>(rows: seq<Trip<R>>, nodes: seq<Node<G>>, distance: (G, Point) -> real, fails: Point -> bool) {
    forall i :: 0 <= i < |rows| ==> !Drifts(rows[i], nodes, distance, fails)
  }

  /** Number of rows whose pickup lookup raises after their dropoff lookup returned. */
  function DriftCount<G, R>(rows: seq<Trip<R>>, nodes: seq<Node<G>>, distance: (G, Point) -> real, fails: Point -> bool): (n: nat)
    ensures n <= |rows|
    ensures n == 0 <==> NoRowDrifts(rows, nodes, distance, fails)
  {
    if |rows| == 0 then 0
    else DriftCount(rows[..|rows| - 1], nodes, distance, fails) +
         (if Drifts(rows[|rows| - 1], nodes, distance, fails) then 1 else 0)
  }

  /** The two lists after the row loop has seen `rows`. */
  function Columns<G, R>(rows: seq<Trip<R>>, nodes: seq<Node<G>>, distance: (G, Point) -> real, fails: Point -> bool): (c: IdLists)
    ensures |c.pickup| == |rows|
    ensures |c.dropoff| == |rows| + DriftCount(rows, nodes, distance, fails)
  {
    if |rows| == 0 then IdLists([], [])
    else
      var before := Columns(rows[..|rows| - 1], nodes, distance, fails);
      var row := RowAppends(rows[|rows| - 1], nodes, distance, fails);
      IdLists(before.dropoff + row.dropoff, before.pickup + row.pickup)
  }

  /**
   * The row loop: appends the nearest-node ids of every row's dropoff and
   * pickup, with NaN appended to both lists when a lookup raises.
   */
  method MapTripsToNodes<G, R>(rows: seq<Trip<R>>, nodes: seq<Node<G>>, distance: (G, Point) -> real, fails: Point -> bool)
    returns (dropoffOsmid: seq<Option<int>>, pickupOsmid: seq<Option<int>>)
    ensures IdLists(dropoffOsmid, pickupOsmid) == Columns(rows, nodes, distance, fails)
    ensures |pickupOsmid| == |rows|
    ensures |dropoffOsmid| == |rows| + DriftCount(rows, nodes, distance, fails)
  {
    dropoffOsmid, pickupOsmid := [], [];
    for i := 0 to |rows|
      invariant IdLists(dropoffOsmid, pickupOsmid) == Columns(rows[..i], nodes, distance, fails)
    {
      var row := rows[i];
      assert rows[..i + 1][..i] == rows[..i];
      var dropoff := Lookup(nodes, DropoffQuery(row), distance, fails);
      if dropoff.Raised? {
        dropoffOsmid := dropoffOsmid + [None];
        pickupOsmid := pickupOsmid + [None];
      } else {
        dropoffOsmid := dropoffOsmid + [dropoff.id];
        var pickup := Lookup(nodes, PickupQuery(row), distance, fails);
        if pickup.Raised? {
          dropoffOsmid := dropoffOsmid + [None];
          pickupOsmid := pickupOsmid + [None];
        } else {
          pickupOsmid := pickupOsmid + [pickup.id];
        }
      }
    }
    assert rows[..|rows|] == rows;
  }

  /**
   * Assigning the two lists as new columns: each list must have exactly one
   * entry per row, otherwise the assignment raises.
   */
  function AssignColumns<R>(rows: seq<Trip<R>>, dropoff: seq<Option<int>>, pickup: seq<Option<int>>): (r: Result<seq<MappedTrip<R>>>)
    ensures r.Ok? <==> |dropoff| == |rows| && |pickup| == |rows|
    ensures r.Ok? ==> |r.value| == |rows| && forall i :: 0 <= i < |rows| ==>
      r.value[i].trip == rows[i] && r.value[i].dropoffOsmid == dropoff[i] && r.value[i].pickupOsmid == pickup[i]
  {
    if |dropoff| != |rows| || |pickup| != |rows| then Err(LengthMismatch(|rows|, |dropoff|, |pickup|))
    else Ok(seq(|rows|, i requires 0 <= i < |rows| => MappedTrip(rows[i], dropoff[i], pickup[i])))
  }

  /**
   * Maps every trip row to its nearest dropoff and pickup nodes and returns
   * the table with the two new columns, or the error the column assignment
   * raises when the lists have drifted apart.
   */
  method GetDemand<G, R>(rows: seq<Trip<R>>, nodes: seq<Node<G>>, distance: (G, Point) -> real, fails: Point -> bool)
    returns (result: Result<seq<MappedTrip<R>>>)
    ensures result.Ok? <==> DriftCount(rows, nodes, distance, fails) == 0
    ensures result.Ok? ==> |result.value| == |rows| && forall i :: 0 <= i < |rows| ==>
      && result.value[i].trip == rows[i]
      && result.value[i].dropoffOsmid == DropoffId(rows[i], nodes, distance, fails)
      && result.value[i].pickupOsmid == PickupId(rows[i], nodes, distance, fails)
  {
    var dropoffOsmid, pickupOsmid := MapTripsToNodes(rows, nodes, distance, fails);
    result := AssignColumns(rows, dropoffOsmid, pickupOsmid);
    if result.Ok? {
      NoDriftAligned(rows, nodes, distance, fails);
    }
  }

  /**
   * When no row drifts, both lists have one entry per row, in row order:
   * the row's dropoff id, and its pickup id (NaN if the dropoff lookup raised).
   */
  lemma {:induction false} NoDriftAligned<G, R>(rows: seq<Trip<R>>, nodes: seq<Node<G>>, distance: (G, Point) -> real, fails: Point -> bool)
    requires DriftCount(rows, nodes, distance, fails) == 0
    ensures var c := Columns(rows, nodes, distance, fails);
            forall i :: 0 <= i < |rows| ==>
              c.dropoff[i] == DropoffId(rows[i], nodes, distance, fails) &&
              c.pickup[i] == PickupId(rows[i], nodes, distance, fails)
  {
    if |rows| > 0 {
      var n := |rows| - 1;
      var init := rows[..n];
      var before := Columns(init, nodes, distance, fails);
      var last := RowAppends(rows[n], nodes, distance, fails);
      assert DriftCount(init, nodes, distance, fails) == 0;
      NoDriftAligned(init, nodes, distance, fails);
      var c := Columns(rows, nodes, distance, fails);
      assert c.dropoff == before.dropoff + last.dropoff && c.pickup == before.pickup + last.pickup;
      assert |before.dropoff| == n && |last.dropoff| == 1;
      forall i | 0 <= i < |rows|
        ensures c.dropoff[i] == DropoffId(rows[i], nodes, distance, fails)
        ensures c.pickup[i] == PickupId(rows[i], nodes, distance, fails)
      {
        if i < n {
          assert init[i] == rows[i];
          assert c.dropoff[i] == before.dropoff[i] && c.pickup[i] == before.pickup[i];
        } else {
          assert c.dropoff[i] == last.dropoff[0] && c.pickup[i] == last.pickup[0];
        }
      }
    }
  }

  /** A drifting row makes the dropoff list longer than the pickup list. */
  lemma DriftDiverges<G, R>(rows: seq<Trip<R>>, nodes: seq<Node<G>>, distance: (G, Point) -> real, fails: Point -> bool, i: nat)
    requires i < |rows| && Drifts(rows[i], nodes, distance, fails)
    ensures var c := Columns(rows, nodes, distance, fails);
            |c.dropoff| > |c.pickup|
  {
  }

  /** A row whose dropoff lookup raises contributes NaN to both lists. */
  lemma FailedDropoffGivesNaN<G, R>(t: Trip<R>, nodes: seq<Node<G>>, distance: (G, Point) -> real, fails: Point -> bool)
    requires fails(DropoffQuery(t))
    ensures RowAppends(t, nodes, distance, fails) == IdLists([None], [None])
  {
  }

  /**
   * A NaN dropoff coordinate does not raise: the row gets NaN as its
   * dropoff id and its pickup is still looked up.
   */
  lemma NaNDropoffKeepsPickup<G, R>(t: Trip<R>, nodes: seq<Node<G>>, distance: (G, Point) -> real, fails: Point -> bool)
    requires |nodes| > 0 && !fails(DropoffQuery(t)) && !fails(PickupQuery(t))
    requires !DropoffQuery(t).Complete() && PickupQuery(t).Complete()
    ensures !Drifts(t, nodes, distance, fails)
    ensures RowAppends(t, nodes, distance, fails).dropoff == [None]
    ensures RowAppends(t, nodes, distance, fails).pickup[0].Some?
  {
  }

  /** A NaN pickup coordinate does not raise either, so the row cannot drift. */
  lemma NaNPickupDoesNotDrift<G, R>(t: Trip<R>, nodes: seq<Node<G>>, distance: (G, Point) -> real, fails: Point -> bool)
    requires |nodes| > 0 && !fails(PickupQuery(t)) && !PickupQuery(t).Complete()
    ensures !Drifts(t, nodes, distance, fails)
    ensures RowAppends(t, nodes, distance, fails).pickup == [None]
  {
  }
}

=== FILE: parking.dfy ===
/**
 * The parking layer: every public open-air parking lot adds one spot, and
 * every public parking house adds its capacity, to the street edge nearest
 * to it (the first edge at minimum distance).
 *
 * Edge and feature geometries are type parameters; the distance between
 * them is a parameter of type `(E, F) -> real`. Edges are addressed by
 * position, as with a range index.
 */
module Parking {
  import opened Common

  /** A row of the parking-house table: its geometry and `anzahl_oeffentliche_pp`. */
  datatype ParkingHouse<F> = ParkingHouse(geometry: F, capacity: int)

  /** A feature together with the number of spots it contributes. */
  datatype Deposit<F> = Deposit(geometry: F, spots: int)

  function Zeros(n: nat): (t: seq<int>)
    ensures |t| == n && forall k :: 0 <= k < n ==> t[k] == 0
  {
    seq(n, _ => 0)
  }

  function LotDeposits<F>(lots: seq<F>): (ds: seq<Deposit<F>>)
    ensures |ds| == |lots|
    ensures forall i :: 0 <= i < |lots| ==> ds[i] == Deposit(lots[i], 1)
  {
    seq(|lots|, i requires 0 <= i < |lots| => Deposit(lots[i], 1))
  }

  function HouseDeposits<F>(houses: seq<ParkingHouse<F>>): (ds: seq<Deposit<F>>)
    ensures |ds| == |houses|
    ensures forall i :: 0 <= i < |houses| ==> ds[i] == Deposit(houses[i].geometry, houses[i].capacity)
  {
    seq(|houses|, i requires 0 <= i < |houses| => Deposit(houses[i].geometry, houses[i].capacity))
  }

  /**
   * The table after one feature: its nearest edge gains `spots`, every
   * other entry stays as it was.
   */
  function AfterFeature<E, F>(t: seq<int>, edges: seq<E>, f: F, spots: int, distance: (E, F) -> real): (r: seq<int>)
    requires |t| == |edges| > 0
    ensures |r| == |t|
    ensures var k := Nearest(edges, f, distance);
            r[k] == t[k] + spots && forall j :: 0 <= j < |t| && j != k ==> r[j] == t[j]
  {
    var k := Nearest(edges, f, distance);
    t[k := t[k] + spots]
  }

  /** Edge `j` is the nearest edge of none of the features in `ds`. */
  predicate NearestOfNone<E, F>(edges: seq<E>, ds: seq<Deposit<F>>, distance: (E, F) -> real, j: nat)
    requires |edges| > 0 || |ds| == 0
  {
    forall i :: 0 <= i < |ds| ==> Nearest(edges, ds[i].geometry, distance) != j
  }

  /** An edge that is the nearest of none of `ds` is the nearest of none of its prefix, nor of its last feature. */
  lemma NearestOfNoneInit<E, F>(edges: seq<E>, ds: seq<Deposit<F>>, distance: (E, F) -> real)
    requires |edges| > 0 && |ds| > 0
    ensures forall j {:trigger NearestOfNone(edges, ds, distance, j)} :: NearestOfNone(edges, ds, distance, j) ==>
      NearestOfNone(edges, ds[..|ds| - 1], distance, j) && Nearest(edges, ds[|ds| - 1].geometry, distance) != j
  {
  }

  /**
   * The table after the features of `ds`, taken in order. An edge that is
   * the nearest edge of no feature keeps its value.
   */
  function Accumulate<E, F>(t: seq<int>, edges: seq<E>, ds: seq<Deposit<F>>, distance: (E, F) -> real): (r: seq<int>)
    requires |t| == |edges|
    requires |edges| > 0 || |ds| == 0
    ensures |r| == |t|
    ensures forall j {:trigger NearestOfNone(edges, ds, distance, j)} ::
      0 <= j < |t| && NearestOfNone(edges, ds, distance, j) ==> r[j] == t[j]
  {
    if |ds| == 0 then t
    else
      var d := ds[|ds| - 1];
      NearestOfNoneInit(edges, ds, distance);
      AfterFeature(Accumulate(t, edges, ds[..|ds| - 1], distance), edges, d.geometry, d.spots, distance)
  }

  /** The parking column: all zero, then the lots, then the parking houses. */
  function ParkingTable<E, F>(edges: seq<E>, lots: seq<F>, houses: seq<ParkingHouse<F>>, distance: (E, F) -> real): (t: seq<int>)
    requires |edges| > 0 || (|lots| == 0 && |houses| == 0)
    ensures |t| == |edges|
  {
    var afterLots := Accumulate(Zeros(|edges|), edges, LotDeposits(lots), distance);
    Accumulate(afterLots, edges, HouseDeposits(houses), distance)
  }

  /**
   * `edges.loc[dist.idxmin(), 'parking'] += spots`: the first edge at minimum
   * distance from `f` gains `spots`; nothing else changes.
   */
  method AddAtNearest<E, F>(parking: array<int>, edges: seq<E>, f: F, spots: int, distance: (E, F) -> real)
    requires parking.Length == |edges| > 0
    modifies parking
    ensures parking[..] == AfterFeature(old(parking[..]), edges, f, spots, distance)
  {
    var dist := Distances(edges, f, distance);
    var k := FirstArgMin(dist);
    parking[k] := parking[k] + spots;
  }

  /**
   * Builds the parking column in place: a zeroed array with one counter per
   * edge, one pass over the lots adding 1 each, one pass over the parking
   * houses adding their capacity, each at the edge of minimum distance.
   */
  method GetParking<E, F>(edges: seq<E>, lots: seq<F>, houses: seq<ParkingHouse<F>>, distance: (E, F) -> real)
    returns (parking: array<int>)
    requires |edges| > 0 || (|lots| == 0 && |houses| == 0)
    ensures fresh(parking)
    ensures parking[..] == ParkingTable(edges, lots, houses, distance)
  {
    parking := new int[|edges|](_ => 0);
    assert parking[..] == Zeros(|edges|);
    ghost var lotDeposits := LotDeposits(lots);
    for i := 0 to |lots|
      invariant parking[..] == Accumulate(Zeros(|edges|), edges, lotDeposits[..i], distance)
    {
      AddAtNearest(parking, edges, lots[i], 1, distance);
      assert lotDeposits[..i + 1][..i] == lotDeposits[..i];
    }
    assert lotDeposits[..|lots|] == lotDeposits;
    ghost var afterLots := parking[..];
    ghost var houseDeposits := HouseDeposits(houses);
    for i := 0 to |houses|
      invariant parking[..] == Accumulate(afterLots, edges, houseDeposits[..i], distance)
    {
      AddAtNearest(parking, edges, houses[i].geometry, houses[i].capacity, distance);
      assert houseDeposits[..i + 1][..i] == houseDeposits[..i];
    }
    assert houseDeposits[..|houses|] == houseDeposits;
  }

  // ---------------------------------------------------------------------
  // Totals
  // ---------------------------------------------------------------------

  function Sum(t: seq<int>): int {
    if |t| == 0 then 0 else Sum(t[..|t| - 1]) + t[|t| - 1]
  }

  function TotalSpots<F>(ds: seq<Deposit<F>>): int {
    if |ds| == 0 then 0 else TotalSpots(ds[..|ds| - 1]) + ds[|ds| - 1].spots
  }

  /** The sum of `anzahl_oeffentliche_pp` over the parking houses. */
  function TotalCapacity<F>(houses: seq<ParkingHouse<F>>): int {
    if |houses| == 0 then 0 else TotalCapacity(houses[..|houses| - 1]) + houses[|houses| - 1].capacity
  }

  lemma {:induction false} SumOfZeros(n: nat)
    ensures Sum(Zeros(n)) == 0
  {
    if n > 0 {
      assert Zeros(n)[..n - 1] == Zeros(n - 1);
      SumOfZeros(n - 1);
    }
  }

  /** Adding `n` to one entry adds `n` to the sum. */
  lemma {:induction false} SumBump(t: seq<int>, k: nat, n: int)
    requires k < |t|
    ensures Sum(t[k := t[k] + n]) == Sum(t) + n
  {
    var u := t[k := t[k] + n];
    var m := |t| - 1;
    if k < m {
      assert u[..m] == t[..m][k := t[k] + n];
      SumBump(t[..m], k, n);
    } else {
      assert u[..m] == t[..m];
    }
  }

  /** Each feature adds exactly its spots to the table's total. */
  lemma {:induction false} AccumulateSum<E, F>(t: seq<int>, edges: seq<E>, ds: seq<Deposit<F>>, distance: (E, F) -> real)
    requires |t| == |edges|
    requires |edges| > 0 || |ds| == 0
    ensures Sum(Accumulate(t, edges, ds, distance)) == Sum(t) + TotalSpots(ds)
  {
    if |ds| > 0 {
      var d := ds[|ds| - 1];
      var before := Accumulate(t, edges, ds[..|ds| - 1], distance);
      AccumulateSum(t, edges, ds[..|ds| - 1], distance);
      var k := Nearest(edges, d.geometry, distance);
      assert AfterFeature(before, edges, d.geometry, d.spots, distance) == before[k := before[k] + d.spots];
      SumBump(before, k, d.spots);
    }
  }

  lemma {:induction false} LotSpots<F>(lots: seq<F>)
    ensures TotalSpots(LotDeposits(lots)) == |lots|
  {
    if |lots| > 0 {
      assert LotDeposits(lots)[..|lots| - 1] == LotDeposits(lots[..|lots| - 1]);
      LotSpots(lots[..|lots| - 1]);
    }
  }

  lemma {:induction false} HouseSpots<F>(houses: seq<ParkingHouse<F>>)
    ensures TotalSpots(HouseDeposits(houses)) == TotalCapacity(houses)
  {
    if |houses| > 0 {
      assert HouseDeposits(houses)[..|houses| - 1] == HouseDeposits(houses[..|houses| - 1]);
      HouseSpots(houses[..|houses| - 1]);
    }
  }

  /**
   * The parking column sums to the number of open lots plus the total
   * capacity of the parking houses.
   */
  lemma ParkingTotal<E, F>(edges: seq<E>, lots: seq<F>, houses: seq<ParkingHouse<F>>, distance: (E, F) -> real)
    requires |edges| > 0 || (|lots| == 0 && |houses| == 0)
    ensures Sum(ParkingTable(edges, lots, houses, distance)) == |lots| + TotalCapacity(houses)
  {
    var afterLots := Accumulate(Zeros(|edges|), edges, LotDeposits(lots), distance);
    AccumulateSum(Zeros(|edges|), edges, LotDeposits(lots), distance);
    AccumulateSum(afterLots, edges, HouseDeposits(houses), distance);
    SumOfZeros(|edges|);
    LotSpots(lots);
    HouseSpots(houses);
  }

  // ---------------------------------------------------------------------
  // Monotonicity
  // ---------------------------------------------------------------------

  /** With non-negative contributions, no entry ever decreases. */
  lemma {:induction false} AccumulateMonotone<E, F>(t: seq<int>, edges: seq<E>, ds: seq<Deposit<F>>, distance: (E, F) -> real)
    requires |t| == |edges|
    requires |edges| > 0 || |ds| == 0
    requires forall i :: 0 <= i < |ds| ==> ds[i].spots >= 0
    ensures forall k :: 0 <= k < |t| ==> t[k] <= Accumulate(t, edges, ds, distance)[k]
  {
    if |ds| > 0 {
      AccumulateMonotone(t, edges, ds[..|ds| - 1], distance);
    }
  }

  /**
   * With non-negative capacities, every entry of the parking column is at
   * least 0, and the parking houses never lower what the lots produced.
   */
  lemma ParkingNonNegative<E, F>(edges: seq<E>, lots: seq<F>, houses: seq<ParkingHouse<F>>, distance: (E, F) -> real)
    requires |edges| > 0 || (|lots| == 0 && |houses| == 0)
    requires forall i :: 0 <= i < |houses| ==> houses[i].capacity >= 0
    ensures var afterLots := Accumulate(Zeros(|edges|), edges, LotDeposits(lots), distance);
            forall k :: 0 <= k < |edges| ==>
              0 <= afterLots[k] <= ParkingTable(edges, lots, houses, distance)[k]
  {
    var afterLots := Accumulate(Zeros(|edges|), edges, LotDeposits(lots), distance);
    AccumulateMonotone(Zeros(|edges|), edges, LotDeposits(lots), distance);
    AccumulateMonotone(afterLots, edges, HouseDeposits(houses), distance);
  }

  /**
   * Two open lots whose nearest edge is the same give that edge 2 spots and
   * every other edge none.
   */
  lemma TwoLotsOnOneEdge<E, F>(edges: seq<E>, a: F, b: F, distance: (E, F) -> real)
    requires |edges| > 0
    requires Nearest(edges, a, distance) == Nearest(edges, b, distance)
    ensures var t := ParkingTable(edges, [a, b], [], distance);
            var k := Nearest(edges, a, distance);
            t[k] == 2 && forall j :: 0 <= j < |edges| && j != k ==> t[j] == 0
  {
    var n := |edges|;
    var k := Nearest(edges, a, distance);
    var ds := LotDeposits([a, b]);
    assert ds[..1][..0] == [] && ds[..1][0] == Deposit(a, 1);
    assert Accumulate(Zeros(n), edges, ds[..1][..0], distance) == Zeros(n);
    var afterA := Accumulate(Zeros(n), edges, ds[..1], distance);
    assert afterA == AfterFeature(Zeros(n), edges, a, 1, distance);
    var afterB := Accumulate(Zeros(n), edges, ds, distance);
    assert afterB == AfterFeature(afterA, edges, b, 1, distance);
    assert HouseDeposits<F>([]) == [];
    assert ParkingTable(edges, [a, b], [], distance) == afterB;
  }
}

=== FILE: region_info_layer.dfy ===
/**
 * The region-information layer of the street network: the speed and
 * travel-time rule applied to every edge, and the assignment of every node
 * to the statistical region (polygon) that contains it.
 *
 * Speeds are reals; a NaN speed (a missing `maxspeed`, or a NaN entry of
 * the road-type table) is `None`. Point-in-polygon containment is a
 * parameter of type `(G, P) -> bool`.
 */
module RegionInfoLayer {
  import opened Common

  // ---------------------------------------------------------------------
  // Speed and travel time
  // ---------------------------------------------------------------------

  /** Converts a velocity from km/h to m/s. */
  function Kph2Ms(v: real): (r: real)
    ensures r * 3.6 == v
  {
    v / 3.6
  }

  /** The fallback speed, in km/h, for a road type the table does not know. */
  const DefaultKph: real := 20.0

  /**
   * The `highway` cell of an edge: a single OSM road-class tag or, where the
   * graph simplification merged segments of different classes, a list of tags.
   */
  datatype RoadClass = Tag(name: string) | Tags(names: seq<string>)

  /** The `maxspeed` cell of an edge, in km/h. */
  datatype MaxSpeed =
    | Missing                          // NaN
    | Given(kph: real)                 // one number
    | Candidates(values: seq<string>)  // a list of candidate limits

  datatype Edge = Edge(highway: RoadClass, length: real, maxspeed: MaxSpeed)

  function Quoted(s: string): string {
    "'" + s + "'"
  }

  function JoinQuoted(ts: seq<string>): (r: string)
    ensures |ts| > 0 ==> |r| > 0 && r[0] == '\''
  {
    if |ts| == 0 then ""
    else if |ts| == 1 then Quoted(ts[0])
    else Quoted(ts[0]) + ", " + JoinQuoted(ts[1..])
  }

  /**
   * The table key `str(e)` of a road class. A list of tags prints with its
   * elements quoted, `['residential', 'tertiary']` (escaping of quote
   * characters inside a tag is not modelled).
   */
  function Key(e: RoadClass): (k: string)
    ensures e.Tag? ==> k == e.name
    ensures e.Tags? ==> |k| >= 2 && k[0] == '[' && (k[1] == '\'' || k == "[]")
    ensures e.Tags? && |e.names| > 0 ==> |k| >= |e.names[0]| + 3 && k[1..|e.names[0]| + 3] == Quoted(e.names[0])
  {
    match e
    case Tag(s) => s
    case Tags(ts) => "[" + JoinQuoted(ts) + "]"
  }

  /**
   * The road-type speed table `v_dict`, in km/h, NaN entries as `None`.
   * The key "[residential, unclassified]" is listed twice, as in the
   * dictionary literal; the later entry (30.0) is the one that stays.
   */
  function VDict(): map<string, Option<real>> {
    map[
      "motorway" := Some(60.0),
      "trunk_link" := Some(50.0),
      "primary" := Some(50.0),
      "primary_link" := Some(50.0),
      "secondary" := Some(50.0),
      "secondary_link" := Some(50.0),
      "tertiary" := Some(50.0),
      "tertiary_link" := Some(50.0),
      "unclassified" := Some(30.0),
      "residential" := Some(30.0),
      "living_street" := Some(20.0),
      "service" := None,
      "motorway_link" := Some(50.0),
      "trunk" := Some(80.0),
      "[residential, tertiary]" := Some(25.0),
      "[residential, unclassified]" := Some(25.0),
      "[secondary, tertiary]" := Some(25.0),
      "[primary, secondary]" := Some(25.0),
      "junction" := Some(15.0),
      "[residential, living_street]" := Some(15.0),
      "[motorway, motorway_link]" := Some(35.0),
      "[unclassified, tertiary]" := Some(25.0),
      "[motorway_link, trunk_link]" := Some(20.0),
      "[secondary, motorway_link]" := Some(25.0),
      "[residential, secondary_link]" := Some(25.0),
      "[primary, motorway_link]" := Some(30.0),
      "[residential, unclassified]" := Some(30.0),
      "bus_guideway " := Some(15.0),
      "invalid" := None
    ]
  }

  /**
   * The shape of the speed table: 'service' and 'invalid' are keys, they
   * are exactly the NaN entries, and every other speed lies between 15 and
   * 80 km/h.
   */
  lemma SpeedTableShape()
    ensures "service" in VDict() && "invalid" in VDict()
    ensures forall k | k in VDict() :: VDict()[k].None? <==> k == "service" || k == "invalid"
    ensures forall k | k in VDict() && VDict()[k].Some? :: 15.0 <= VDict()[k].value <= 80.0
  {
  }

  /**
   * Speed in m/s for a road-type key and a maxspeed in km/h: an explicit
   * maxspeed wins; otherwise the table entry for the key; otherwise 20 km/h.
   */
  function VelocityFromType(table: map<string, Option<real>>, key: string, maxspeed: Option<real>): (r: Option<real>)
    ensures maxspeed.Some? ==> r.Some? && r.value * 3.6 == maxspeed.value
    ensures maxspeed.None? && key in table ==>
      (r.Some? <==> table[key].Some?) && (r.Some? ==> r.value * 3.6 == table[key].value)
    ensures maxspeed.None? && key !in table ==> r.Some? && r.value * 3.6 == DefaultKph
  {
    if maxspeed.None? then
      if key in table then
        match table[key]
        case Some(v) => Some(Kph2Ms(v))
        case None => None
      else
        Some(Kph2Ms(DefaultKph))
    else
      Some(Kph2Ms(maxspeed.value))
  }

  /** `float(maxs)` after a list-valued maxspeed has been replaced by 20. */
  function MaxsOf(m: MaxSpeed): (r: Option<real>)
    ensures r.None? <==> m.Missing?
    ensures m.Given? ==> r == Some(m.kph)
    ensures m.Candidates? ==> r == Some(DefaultKph)
  {
    match m
    case Missing => None
    case Given(v) => Some(v)
    case Candidates(_) => Some(DefaultKph)
  }

  /** The speed, in m/s, that the edge walk assigns to one edge. */
  function EdgeSpeed(e: Edge): (r: Option<real>)
    ensures e.maxspeed.Given? ==> r.Some? && r.value * 3.6 == e.maxspeed.kph
    ensures e.maxspeed.Candidates? ==> r.Some? && r.value * 3.6 == DefaultKph
    ensures e.maxspeed.Missing? && Key(e.highway) !in VDict() ==> r.Some? && r.value * 3.6 == DefaultKph
    ensures e.maxspeed.Missing? && Key(e.highway) in VDict() ==>
      (r.Some? <==> VDict()[Key(e.highway)].Some?) &&
      (r.Some? ==> r.value * 3.6 == VDict()[Key(e.highway)].value)
  {
    VelocityFromType(VDict(), Key(e.highway), MaxsOf(e.maxspeed))
  }

  /**
   * `length / speed`. A NaN speed gives NaN, and a zero speed gives a
   * non-finite quotient (numpy division); both are `None`.
   */
  function TravelTime(length: real, speed: Option<real>): (t: Option<real>)
    ensures t.Some? <==> speed.Some? && speed.value != 0.0
    ensures t.Some? ==> t.value * speed.value == length
  {
    if speed.Some? && speed.value != 0.0 then Some(length / speed.value) else None
  }

  /**
   * One pass of the edge walk: a list-valued maxspeed is replaced by 20,
   * the speed comes from `velocity_from_type`, and the time is the length
   * divided by that speed.
   */
  method EdgeStep(e: Edge) returns (speed: Option<real>, time: Option<real>)
    ensures speed == EdgeSpeed(e)
    ensures time == TravelTime(e.length, speed)
    ensures time.Some? ==> speed.Some? && time.value * speed.value == e.length
  {
    var maxs: Option<real>;
    match e.maxspeed {
      case Candidates(_) => maxs := Some(DefaultKph);
      case Given(v) => maxs := Some(v);
      case Missing => maxs := None;
    }
    speed := VelocityFromType(VDict(), Key(e.highway), maxs);
    time := if speed.Some? && speed.value != 0.0 then Some(e.length / speed.value) else None;
  }

  /**
   * Walks the edges in order and builds the `speed` and `time` columns,
   * one entry per edge.
   */
  method GetSpeedTime(edges: seq<Edge>) returns (speed: seq<Option<real>>, time: seq<Option<real>>)
    ensures |speed| == |edges| && |time| == |edges|
    ensures forall i :: 0 <= i < |edges| ==> speed[i] == EdgeSpeed(edges[i])
    ensures forall i :: 0 <= i < |edges| ==> time[i] == TravelTime(edges[i].length, speed[i])
    ensures forall i :: 0 <= i < |edges| && time[i].Some? ==>
      speed[i].Some? && time[i].value * speed[i].value == edges[i].length
  {
    speed, time := [], [];
    for i := 0 to |edges|
      invariant |speed| == i && |time| == i
      invariant forall k :: 0 <= k < i ==> speed[k] == EdgeSpeed(edges[k])
      invariant forall k :: 0 <= k < i ==> time[k] == TravelTime(edges[k].length, speed[k])
    {
      var s, t := EdgeStep(edges[i]);
      speed, time := speed + [s], time + [t];
    }
  }

  /** A residential edge without maxspeed runs at 30 km/h. */
  lemma ResidentialDefault(length: real)
    ensures EdgeSpeed(Edge(Tag("residential"), length, Missing)) == Some(30.0 / 3.6)
  {
  }

  /** An explicit maxspeed of 50 km/h gives 50/3.6 m/s whatever the road class. */
  lemma ExplicitMaxspeedWins(highway: RoadClass, length: real)
    ensures EdgeSpeed(Edge(highway, length, Given(50.0))) == Some(50.0 / 3.6)
  {
  }

  /** The duplicated compound key keeps its later value, 30 km/h. */
  lemma DuplicateKeyKeepsLater()
    ensures VDict()["[residential, unclassified]"] == Some(30.0)
    ensures EdgeSpeed(Edge(Tag("[residential, unclassified]"), 0.0, Missing)) == Some(30.0 / 3.6)
  {
  }

  /** The NaN table entries give an edge neither a speed nor a travel time. */
  lemma NaNEntriesGiveNoTime(length: real)
    ensures EdgeSpeed(Edge(Tag("service"), length, Missing)) == None
    ensures EdgeSpeed(Edge(Tag("invalid"), length, Missing)) == None
    ensures TravelTime(length, EdgeSpeed(Edge(Tag("service"), length, Missing))) == None
    ensures TravelTime(length, EdgeSpeed(Edge(Tag("invalid"), length, Missing))) == None
  {
  }

  /**
   * No list-valued road class ever matches a table key: its printed form
   * quotes the tags, while the compound table keys do not. Such an edge
   * without maxspeed runs at the 20 km/h fallback.
   */
  lemma CompoundKeysUnmatched(names: seq<string>, length: real)
    ensures Key(Tags(names)) !in VDict()
    ensures EdgeSpeed(Edge(Tags(names), length, Missing)) == Some(DefaultKph / 3.6)
  {
  }

  // ---------------------------------------------------------------------
  // Node-to-region assignment
  // ---------------------------------------------------------------------

  /** A row of the region table: its polygon and its label `qnr`. */
  datatype Region<G> = Region(geometry: G, qnr: int)

  /**
   * The label of the last region, in table order, whose polygon contains `p`,
   * or `None` when no polygon contains it.
   */
  function LastContaining<G, P>(regions: seq<Region<G>>, p: P, contains: (G, P) -> bool): (r: Option<int>)
    ensures r.None? <==> forall j :: 0 <= j < |regions| ==> !contains(regions[j].geometry, p)
    ensures r.Some? ==> exists j :: 0 <= j < |regions| && contains(regions[j].geometry, p) && regions[j].qnr == r.value &&
                                    forall k :: j < k < |regions| ==> !contains(regions[k].geometry, p)
  {
    if |regions| == 0 then None
    else
      var last := regions[|regions| - 1];
      if contains(last.geometry, p) then Some(last.qnr)
      else LastContaining(regions[..|regions| - 1], p, contains)
  }

  /** The value stored for `p` in the zero-initialised label array. */
  function Label<G, P>(regions: seq<Region<G>>, p: P, contains: (G, P) -> bool): (l: int)
    ensures l != 0 ==> exists j :: 0 <= j < |regions| && contains(regions[j].geometry, p) && regions[j].qnr == l
  {
    LastContaining(regions, p, contains).GetOr(0)
  }

  /**
   * Fills a zero-initialised array with one label per point; every
   * containing polygon overwrites the entry, so the last one wins.
   */
  method GetGeoNode<G, P>(points: seq<P>, regions: seq<Region<G>>, contains: (G, P) -> bool) returns (tract: array<int>)
    ensures fresh(tract)
    ensures tract.Length == |points|
    ensures forall i :: 0 <= i < |points| ==> tract[i] == Label(regions, points[i], contains)
  {
    tract := new int[|points|](_ => 0);
    for i := 0 to |points|
      invariant forall k :: 0 <= k < i ==> tract[k] == Label(regions, points[k], contains)
      invariant forall k :: i <= k < |points| ==> tract[k] == 0
    {
      for j := 0 to |regions|
        invariant tract[i] == Label(regions[..j], points[i], contains)
        invariant forall k :: 0 <= k < i ==> tract[k] == Label(regions, points[k], contains)
        invariant forall k :: i < k < |points| ==> tract[k] == 0
      {
        assert regions[..j + 1][..j] == regions[..j];
        if contains(regions[j].geometry, points[i]) {
          tract[i] := regions[j].qnr;
        }
      }
      assert regions[..|regions|] == regions;
    }
  }

  /** A point inside no polygon keeps the initial 0. */
  lemma UncontainedPointKeepsZero<G, P>(regions: seq<Region<G>>, p: P, contains: (G, P) -> bool)
    requires forall j :: 0 <= j < |regions| ==> !contains(regions[j].geometry, p)
    ensures Label(regions, p, contains) == 0
  {
  }

  /**
   * Of several polygons containing a point, the last one in table order
   * gives the label.
   */
  lemma LastContainerWins<G, P>(regions: seq<Region<G>>, p: P, contains: (G, P) -> bool, j: nat)
    requires j < |regions| && contains(regions[j].geometry, p)
    requires forall k :: j < k < |regions| ==> !contains(regions[k].geometry, p)
    ensures Label(regions, p, contains) == regions[j].qnr
  {
  }

  /** When exactly one polygon contains the point, its label is the result. */
  lemma OnlyContainerGivesLabel<G, P>(regions: seq<Region<G>>, p: P, contains: (G, P) -> bool, j: nat)
    requires j < |regions| && contains(regions[j].geometry, p)
    requires forall k :: 0 <= k < |regions| && k != j ==> !contains(regions[k].geometry, p)
    ensures Label(regions, p, contains) == regions[j].qnr
  {
  }

  /**
   * The label 0 does not tell a point inside a region labelled 0 from a
   * point inside no region.
   */
  lemma ZeroLabelIsAmbiguous()
    ensures var regions := [Region(7, 0)];
            var inside := (g: int, p: int) => g == p;
            inside(7, 7) && !inside(7, 8) &&
            Label(regions, 7, inside) == 0 && Label(regions, 8, inside) == 0
  {
  }
}

=== FILE: utils.dfy ===
/**
 * Validators for the answers typed at the interactive prompts.
 * Strings are compared exactly: no case folding, no trimming.
 */
module Utils {

  /** A yes/no answer is valid when it is exactly "y" or exactly "n". */
  predicate ValidYnInput(pt: string)
    ensures ValidYnInput(pt) <==> pt in {"y", "n"}
    ensures ValidYnInput(pt) ==> |pt| == 1
  {
    pt == "y" || pt == "n"
  }

  /** A city is valid when it occurs in the list of supported cities. */
  predicate ValidCityInput(city: string, cities: seq<string>)
    ensures ValidCityInput(city, cities) <==> exists i :: 0 <= i < |cities| && cities[i] == city
    ensures cities == [] ==> !ValidCityInput(city, cities)
  {
    city in cities
  }

  /** A feed URL is valid when it occurs in the list of known URLs. */
  predicate ValidUrlInput(zipUrl: string, urls: seq<string>)
    ensures ValidUrlInput(zipUrl, urls) <==> exists i :: 0 <= i < |urls| && urls[i] == zipUrl
  {
    zipUrl in urls
  }

  /** Other spellings of yes and no are rejected. */
  lemma YnRejectsOtherSpellings()
    ensures !ValidYnInput("Y") && !ValidYnInput("N")
    ensures !ValidYnInput("yes") && !ValidYnInput("no")
    ensures !ValidYnInput("") && !ValidYnInput(" y")
  {
  }

  /**
   * A city appended to the list is valid afterwards, and every city valid
   * before stays valid.
   */
  lemma AppendedCityIsValid(city: string, other: string, cities: seq<string>)
    ensures ValidCityInput(city, cities + [city])
    ensures ValidCityInput(other, cities) ==> ValidCityInput(other, cities + [city])
  {
  }
}
